=== FILE: README.md ===
# actionable: the permission trie, in Dafny

This project models the authorization core of the `actionable` crate.

- **Addressing.** A resource is named by a `ResourceName`, a path of `Identifier`s (`Any`, an unsigned 64-bit integer or a string). An action is named by an `ActionName`, a path of strings such as `Post.Delete`. Both render with `Display` as their segments joined by `.`.
- **Action names.** `#[derive(Action)]` gives each enum variant its name: `[Ident]` for a unit variant, and `Ident` prepended to the sub-action's name for a one-field variant. It refuses a variant with more fields. The `()` action has the empty name.
- **Statements.** A `Statement` names resources, an `ActionNameList` (`All` or an explicit `List`), and whether the actions are `allowed`.
- **The trie.** `Permissions` holds one node per resource segment. Each node has children keyed by `Identifier` and an `AllowedActions` action trie: `None`, `Some(map)` or `All`.
- **Evaluation.** `allowed_to` tries the child for the exact next segment, then the `Any` child. If neither allows, it walks the node's own action trie with the action's segments.
- **Build.** `From<Vec<Statement>>` walks or creates resource nodes, then action nodes, and sets the leaf it reached to `All` or `None`.

Modules follow the source files:

| module | file | models |
|---|---|---|
| `Text` | `text.dfy` | joining with `.`, its inverse split, decimal rendering (helpers of the `Display` impls) |
| `Actions` | `action.dfy` | `actionable/src/action.rs` |
| `DeriveAction` | `derive_action.dfy` | the naming rule in `actionable-macros/src/action.rs`, plus the `()` action |
| `Statements` | `statement.dfy` | `actionable/src/statement.rs` |
| `Permissions` | `permissions.dfy` | `actionable/src/permissions.rs` |
| `PermissionLemmas` | `permission_lemmas.dfy` | properties of the trie, the walk and the build |
| `Intended` | `intended.dfy` | the corrected build of the Findings below |
| `Scenarios` | `scenarios.dfy` | the cases of `actionable/src/tests.rs` |

The build is a left fold of `ApplyStatement` over the statements. `ApplyStatement` applies one recursive `UpdateAt` per named resource. `FromStatements` is the loop form of the same fold. `AllowedTo` recurses on the length of the resource name, and `ActionAllowed` on the length of the action name.

The model follows permissions.rs where the crate's files disagree:

- **Identifier.** `Identifier` has no byte-string variant, and its equality is the derived, structural one: `Integer(n)` never equals `String(s)`.
- **Statement.** The build reads `statement.allowed` at permissions.rs:120, but the `Statement` of statement.rs:12-17 has no such field. The macro-expanded copy of the crate has it (actionable/expand.rs:649-656). The model's `Statement` therefore carries `allowed: bool`. An allow-only statement is the case `allowed = true`, and `Statement::allow_all()` sets it.
- **Build semantics.** The build keeps the code's behaviour; where that differs from tests.rs, it is listed under Findings.

## Model

| member | source | states |
|---|---|---|
| `Actions.DefaultName` | actionable/src/action.rs:20-23 | `ActionName::default()` has no segments |
| `Actions.Display` | actionable/src/action.rs:25-36 | an empty name renders `""`; a one-segment name renders as that segment verbatim; n ≥ 1 dot-free segments render with exactly n−1 dots, and splitting the rendering at `.` gives the segments back |
| `Actions.DisplayHasNoOuterDots` | actionable/src/action.rs:25-36 | the rendering neither starts nor ends with `.` when the outer segments are non-empty and dot-free |
| `DeriveAction.Name` | actionable-macros/src/action.rs:56-80 | (with the `()` impl at actionable/src/action.rs:14-18) `()` is named `[]`; a unit variant `V` is named `["V"]`; a one-field variant `V(sub)` is named `["V"] ++ name(sub)`; a variant with more than one field is rejected; a variant's name always starts with its own identifier |
| `DeriveAction.NameSucceedsIffAccepted` | actionable-macros/src/action.rs:59-79 | naming succeeds exactly when every nested variant has at most one field; the name then has one segment per nested variant (length 1 + \|name(sub)\| for `V(sub)`) |
| `DeriveAction.NameOfNest` | actionable-macros/src/action.rs:65-72 | every action name is the derived name of some accepted nested enum value |
| `Statements.IdentifierToOwned` | actionable/src/statement.rs:45-51 | the owned identifier has the same variant and value |
| `Statements.FromU64` | actionable/src/statement.rs:64-68 | `From<u64>` gives `Integer` of that value, never `Any` |
| `Statements.FromText` | actionable/src/statement.rs:70-86 | the string `From`s give `String` of that text, never `Any` |
| `Statements.IdentifierEqualityIsStructural` | actionable/src/statement.rs:32-40 | an integer identifier never equals a string identifier; `Any` equals only `Any`; equal identifiers have the same variant and value |
| `Statements.IdentifierDisplay` | actionable/src/statement.rs:54-62 | `Any` renders `*`; an integer renders as at least one decimal digit, with no leading zero (so 0 renders as the single digit `0`), reading back as its value; a string renders verbatim |
| `Statements.AnyName` | actionable/src/statement.rs:156-158 | `ResourceName::any()` is exactly `[Any]` |
| `Statements.Named` | actionable/src/statement.rs:162-164 | `named(x)` is exactly `[x]` |
| `Statements.And` | actionable/src/statement.rs:168-171 | `and(x)` adds one segment `x` at the end and leaves the earlier segments unchanged |
| `Statements.ResourceToOwned` | actionable/src/statement.rs:134-136 | the owned name has the same length and is equal element by element |
| `Statements.ResourceDisplay` | actionable/src/statement.rs:139-151 | an empty name renders `""`; `any()` renders `*`; n ≥ 1 segments without dots in their strings render with exactly n−1 dots, and splitting gives back each segment's rendering |
| `Statements.FromName` | actionable/src/statement.rs:115-119 | `From<ActionName>` gives a one-element `List` of that name |
| `Statements.FromNames` | actionable/src/statement.rs:121-125 | `From<Vec<ActionName>>` gives a `List` of exactly those names |
| `Statements.FromAction` | actionable/src/statement.rs:97-104 | `From<T: Action>` gives a one-element `List` holding the action's derived name |
| `Statements.FromActions` | actionable/src/statement.rs:106-113 | `From<Vec<T: Action>>` gives a `List` of the actions' names, same length and order |
| `Statements.AllowAll` | actionable/src/statement.rs:23-28 | `allow_all()` has resources `[any()]`, actions `All`, and allows |
| `Permissions.Default` | actionable/src/permissions.rs:6-10 | the default trie has no children and its grant is `None` |
| `Permissions.EvaluateAction` | actionable/src/permissions.rs:56-72 | the loop over action segments returns the verdict of the recursive walk `ActionAllowed` |
| `Permissions.FromStatements` | actionable/src/permissions.rs:76-129 | the loops over statements and resources build the same trie as the fold `Build` |
| `PermissionLemmas.ActionWalkCases` | actionable/src/permissions.rs:56-72 | `None` denies every action; `All` allows every action; a missing key in `Some` denies; with no segments, the verdict is true iff the trie is exactly `All` |
| `PermissionLemmas.ActionAllowedIffGrantedPrefix` | actionable/src/permissions.rs:56-72 | the walk allows an action iff some prefix of it leads through partial grants to `All` |
| `PermissionLemmas.AllowedToIffMatchingGrant` | actionable/src/permissions.rs:27-72 | `allowed_to(r, a)` iff some pattern of exact or `Any` segments matching a prefix of `r` reaches a node whose grant admits `a` |
| `PermissionLemmas.AllowedToHasMatchingGrant` | actionable/src/permissions.rs:27-56 | an allowing verdict always comes from the exact child, the `Any` child, or the node's own grant at a matching node |
| `PermissionLemmas.MatchingGrantAllows` | actionable/src/permissions.rs:40-46 | a grant at a node reached by exact or `Any` segments allows the action on every resource that pattern matches, including a grant on `any()` for any one-segment resource |
| `PermissionLemmas.AllowedToExtends` | actionable/src/permissions.rs:50-56 | if `allowed_to(r, a)` then `allowed_to(r ++ s, a)` for every suffix `s` |
| `PermissionLemmas.DefaultDeniesEverything` | actionable/src/permissions.rs:6-10 | the default trie denies every resource and action, the empty action name included |
| `PermissionLemmas.DefaultNodeAllowed` | actionable/src/permissions.rs:138-142 | no node of the default trie has a grant other than `None` |
| `PermissionLemmas.SetAlongIdempotent` | actionable/src/permissions.rs:92-124 | walking the same action path to the same leaf twice changes nothing the second time |
| `PermissionLemmas.SetAlongFromNone` | actionable/src/permissions.rs:92-124 | from an empty action trie, setting `leaf` along `path` admits exactly the actions that start with `path` and whose rest `leaf` admits |
| `PermissionLemmas.SetAlongReachesLeaf` | actionable/src/permissions.rs:113-121 | after the walk, the path leads through partial grants to the `All` just set |
| `PermissionLemmas.SetAlongNoneDenies` | actionable/src/permissions.rs:92-124 | setting the leaf `None` along `path` denies every action starting with `path`, whatever the action trie held before |
| `PermissionLemmas.SetAlongKeepsDivergingGrants` | actionable/src/permissions.rs:97-113 | the walk keeps every partial-grant subtree off its path: a name granted before that neither extends the path nor is extended by it is still granted |
| `PermissionLemmas.SetAlongOutsidePath` | actionable/src/permissions.rs:92-124 | the walk allows no new action off its path: an action that does not start with the path and is allowed afterwards was allowed before |
| `PermissionLemmas.NodeAllowedAfterUpdateAt` | actionable/src/permissions.rs:82-89 | updating the node at one resource path changes that node's grant only; creating missing nodes grants nothing |
| `PermissionLemmas.NodeAllowedAfterUpdateEach` | actionable/src/permissions.rs:81-125 | after a statement's update at each of its resources, each named node holds the update of its former grant, however often it is named; other nodes keep their grants |
| `PermissionLemmas.ApplyStatementNodes` | actionable/src/permissions.rs:80-125 | one statement sets each named node's grant to the walk of the statement's action path ending in `All` or `None` per `allowed`; nothing else changes |
| `PermissionLemmas.AllActionsGrantAllowsEverything` | actionable/src/permissions.rs:117-121 | a statement with `All` and `allowed = true` makes each named node `All` and allows every action on each named resource |
| `PermissionLemmas.SingleNameGrantAllowsExtensions` | actionable/src/permissions.rs:94-121 | a statement `List([p])` with `allowed = true` allows every action starting with `p` on each named resource |
| `PermissionLemmas.DenyAllErasesNode` | actionable/src/permissions.rs:117-124 | a statement with `All` and `allowed = false` leaves each named node's grant `None`, denying every action there |
| `PermissionLemmas.DenyingStatementRevokes` | actionable/src/permissions.rs:80-125 | a statement with `allowed = false` denies, on each node it names, every action starting with its action path, whatever that node granted before |
| `PermissionLemmas.SingleStatementBuild` | actionable/src/permissions.rs:76-129 | a trie built from one statement allows `(r, a)` iff the statement allows, some listed resource matches a prefix of `r` (with `Any` as wildcard), and `a` starts with the chained action path; so `List([p])` admits `Post.Delete` for `p = Post` but not `DoSomething` |
| `Scenarios.DerivedTestNames` | actionable/src/tests.rs:10-23 | `TestActions::Post(PostActions::Read)` is named `["Post","Read"]`, `DoSomething` is `["DoSomething"]`, `()` is `[]` |
| `Scenarios.BasicsOnNamed` | actionable/src/tests.rs:27-46 | the trie of the `basics` test allows, on a one-segment string resource, `Post.Read`-prefixed actions everywhere, everything on `all-actions-allowed`, and `Post`-prefixed actions on `only-post-actions-allowed`, and nothing else |
| `Scenarios.BasicsAllowed` | actionable/src/tests.rs:48-63 | the four positive checks of the `basics` test hold |
| `Scenarios.BasicsDenied` | actionable/src/tests.rs:66-78 | the three negative checks of the `basics` test hold |
| `Scenarios.AllowAllCoversSingleSegments` | actionable/src/statement.rs:23-28 | a trie built from `allow_all()` allows every action on every one-segment resource |
| `Scenarios.MultipleActionsAsWritten` | actionable/src/permissions.rs:92-124 | as written, `List([Post.Read, Post.Delete])` builds the single path `Post.Read.Post.Delete`; neither `Post.Read` nor `Post.Delete` is allowed |
| `Scenarios.EmptyListAsWritten` | actionable/src/permissions.rs:94-121 | as written, an allowing `List([])` makes the node `All` |
| `Scenarios.PartialGrantDowngradesAsWritten` | actionable/src/permissions.rs:97-104 | as written, a later `List([Post])` on a node that is `All` denies `DoSomething`, which was allowed before |
| `Scenarios.RevokeDowngradesAsWritten` | actionable/src/permissions.rs:97-124 | as written, a later revoke of `Post.Read` on a node that is `All` also denies `DoSomething`, which was allowed before and never revoked |
| `Intended.GrantPathAdmits` | actionable/src/tests.rs:81-110 | the corrected grant of one name adds exactly the actions starting with it and removes nothing |
| `Intended.GrantEachAdmits` | actionable/src/tests.rs:81-110 | the corrected grant of a list adds exactly the actions starting with one of its names |
| `Intended.IntendedListGrant` | actionable/src/tests.rs:81-110 | a corrected allowing `List` statement widens each named node by the listed names and changes no other node |
| `Intended.IntendedAllGrant` | actionable/src/permissions.rs:117-121 | a corrected allowing `All` statement makes each named node admit everything and changes no other node |
| `Intended.AllowingStatementWidens` | actionable/src/permissions.rs:97-104 | on the corrected build, every pair allowed before an allowing statement is still allowed after it |
| `Intended.IntendedSingleListStatement` | actionable/src/tests.rs:81-110 | a corrected trie built from one allowing `List` statement allows `(r, a)` iff a listed resource matches `r` and `a` starts with one of the listed names |
| `Scenarios.MultipleActionsIntended` | actionable/src/tests.rs:96-109 | on the corrected build the `multiple_actions` test holds: `Post.Read` and `Post.Delete` are allowed, `DoSomething` is not |
| `Scenarios.EmptyListIntended` | actionable/src/statement.rs:90-95 | on the corrected build an allowing `List([])` allows nothing |
| `Scenarios.PartialGrantKeepsAllIntended` | actionable/src/permissions.rs:97-104 | on the corrected build a later `List([Post])` keeps the earlier `All` in force |

## Left out

- `Permissions::merged`, `Configuration`, `Permissions::get` and `Statement::for_any().with`: they are used by the tests and the crate docs, but their implementations are not part of this model.
- `Display` impls: only the default format (`{}`/`to_string`) is modelled; width, fill and precision flags, which Rust applies to each segment separately, are not.
- The `println!`/`dbg!` tracing inside `allowed_to`: it only writes output.
- Lifetimes, `Cow` borrowing and `HashMap` hashing: the model uses Dafny's `map`, `seq` and `string`. An absent children map is the empty map.
- `allowed_to` takes `&P: Action` and calls `name()`. The model takes the `ActionName` directly, and `DeriveAction.Name` models `name()`.
- `DeriveAction.Name`: the derive rejects an enum with a many-field variant when it compiles. The model reports the rejection when naming a value that reaches such a variant. The token generation (`quote!`, crate-path overrides, generics) is not modelled.
- `DeriveAction.Accepted`: only unit and tuple variants are modelled; the derive's output (`Self::V` and `Self::V(subaction)` patterns) does not compile for struct variants, and the crate documents only a single name-less parameter.
- Serialization (serde derives), the dispatcher traits and macros, the example program, and the build tooling.

## Findings

| source | as written | input that shows it | evidently intended | confidence | as-written member | corrected member |
|---|---|---|---|---|---|---|
| actionable/src/permissions.rs:92-124 | the action cursor is not reset between the names of a `List`, and the leaf is set once, so the names chain into one path | `List([Post.Read, Post.Delete])` on `any()`: `Post.Read` on `someresource` is denied (the `multiple_actions` test expects it allowed) | each listed name is granted separately from the node | high (the test contradicts it); not executed | `Scenarios.MultipleActionsAsWritten` | `Intended.IntendedSingleListStatement` |
| actionable/src/permissions.rs:94-121 | an empty `List` walks no segment, so the node itself becomes `All` | `List([])` with `allowed = true` on `all-actions-allowed` allows `DoSomething` | an empty list grants nothing | medium; not executed | `Scenarios.EmptyListAsWritten` | `Scenarios.EmptyListIntended` |
| actionable/src/permissions.rs:97-104 | a partial grant or revoke on a node that is `All` replaces it with a fresh partial map, taking earlier grants away; so revoking one name from an `All` node also denies every other action | `All` then `List([Post])` on the same resource, or `All` then a revoke of `Post.Read`: `DoSomething` goes from allowed to denied | an allowing statement only widens; `All` covers the names below it. The revoke downgrade stays in `Intended`, because `AllowedActions` cannot express "every action but one name" | medium; not executed | `Scenarios.PartialGrantDowngradesAsWritten`, `Scenarios.RevokeDowngradesAsWritten` | `Intended.AllowingStatementWidens` |

The main model, `Permissions.Build`, keeps the code as written. The `Intended` module gives the corrected build, `BuildIntended`, alongside it. The corrected build grants each listed name from the node, keeps an `All` already in place, and grants nothing for an empty list. A statement with `allowed = false` walks each listed name separately from the node and sets it to `None` with the written walk; an `All` met on the way becomes a partial grant, as in the written build.

=== FILE: action.dfy ===
/**
 Action names (actionable/src/action.rs): a hierarchical, dot-rendered path
 of string segments such as `Post.Delete`.
 */
module Actions {
  import Text

  /** `ActionName(Vec<Cow<str>>)`: the full name of an action, outermost segment first. */
  type ActionName = seq<string>

  /** `ActionName::default()`: the name with no segments. */
  function DefaultName(): (r: ActionName)
    ensures |r| == 0
  {
    []
  }

  /** `Display for ActionName`: the segments in order, separated by '.'. */
  function Display(name: ActionName): (r: string)
    ensures |name| == 0 ==> r == ""
    ensures |name| == 1 ==> r == name[0]
    ensures |name| >= 1 && (forall i :: 0 <= i < |name| ==> Text.DotFree(name[i])) ==>
              Text.CountDots(r) == |name| - 1 && Text.Split(r) == name
  {
    if |name| >= 1 && forall i :: 0 <= i < |name| ==> Text.DotFree(name[i]) then
      Text.JoinDotCount(name);
      Text.SplitJoin(name);
      Text.Join(name)
    else
      Text.Join(name)
  }

  /** Neither a leading nor a trailing '.' when the outer segments are non-empty. */
  lemma DisplayHasNoOuterDots(name: ActionName)
    requires |name| >= 1 && name[0] != "" && name[|name| - 1] != ""
    requires Text.DotFree(name[0]) && Text.DotFree(name[|name| - 1])
    ensures |Display(name)| >= 1
    ensures Display(name)[0] != '.'
    ensures Display(name)[|Display(name)| - 1] != '.'
  {
    Text.JoinEnds(name);
    var r := Display(name);
    var last := name[|name| - 1];
    assert r[..|name[0]|][0] == name[0][0];
    assert r[|r| - |last|..][|last| - 1] == last[|last| - 1];
  }
}

=== FILE: derive_action.dfy ===
/**
 The naming rule that `#[derive(Action)]` generates
 (actionable-macros/src/action.rs), together with the `()` action
 (actionable/src/action.rs).

 An action value is either the unit action `()` or a variant of a derived
 enum: its identifier and the values of its fields. The generated `name()`
 yields `[Ident]` for a unit variant and prepends `Ident` to the sub-action's
 name for a one-field variant; the derive refuses a variant with more fields.
 */
module DeriveAction {
  import opened Actions

  datatype ActionValue =
    | Unit
    | Variant(ident: string, fields: seq<ActionValue>)

  datatype DeriveError = TooManyFields(ident: string)

  datatype NameResult = Named(name: ActionName) | Rejected(error: DeriveError)

  /** The name `Action::name` returns for `v`, or the derive's refusal. */
  function Name(v: ActionValue): (r: NameResult)
    ensures v.Unit? ==> r == Named(DefaultName())
    ensures v.Variant? && |v.fields| == 0 ==> r == Named([v.ident])
    ensures v.Variant? && |v.fields| > 1 ==> r == Rejected(TooManyFields(v.ident))
    ensures v.Variant? && |v.fields| == 1 && r.Named? ==>
              Name(v.fields[0]).Named? && r.name == [v.ident] + Name(v.fields[0]).name
    ensures r.Named? && v.Variant? ==> |r.name| >= 1 && r.name[0] == v.ident
  {
    match v
    case Unit => Named(DefaultName())
    case Variant(id, fields) =>
      if |fields| == 0 then Named([id])
      else if |fields| == 1 then
        match Name(fields[0])
        case Named(sub) => Named([id] + sub)
        case Rejected(e) => Rejected(e)
      else Rejected(TooManyFields(id))
  }

  /** The derive accepts every variant met on the way down: none has more than one field. */
  predicate Accepted(v: ActionValue) {
    match v
    case Unit => true
    case Variant(_, fields) => |fields| == 0 || (|fields| == 1 && Accepted(fields[0]))
  }

  /** Number of enum variants nested inside one another in `v`. */
  function Depth(v: ActionValue): nat {
    match v
    case Unit => 0
    case Variant(_, fields) => if |fields| == 1 then 1 + Depth(fields[0]) else 1
  }

  /** `name()` succeeds exactly on the values the derive accepts, and then has one segment per variant. */
  lemma {:induction false} NameSucceedsIffAccepted(v: ActionValue)
    ensures Name(v).Named? <==> Accepted(v)
    ensures Name(v).Named? ==> |Name(v).name| == Depth(v)
  {
    match v
    case Unit =>
    case Variant(_, fields) =>
      if |fields| == 1 {
        NameSucceedsIffAccepted(fields[0]);
      }
  }

  /** The nested enum value whose name is `name`: one variant per segment. */
  function Nest(name: ActionName): ActionValue {
    if |name| == 0 then Unit
    else if |name| == 1 then Variant(name[0], [])
    else Variant(name[0], [Nest(name[1..])])
  }

  /** Every action name is the name of some accepted nested enum value. */
  lemma {:induction false} NameOfNest(name: ActionName)
    ensures Accepted(Nest(name))
    ensures Name(Nest(name)) == Named(name)
  {
    if |name| > 1 {
      NameOfNest(name[1..]);
      assert name == [name[0]] + name[1..];
    }
  }
}

=== FILE: intended.dfy ===
/**
 The statement build as its tests and documentation evidently intend it,
 beside the build as written (module Permissions): each name of a `List`
 is granted separately from the node, an `All` already in place covers the
 names below it and is kept, and an empty `List` grants nothing. A statement
 with `allowed = false` walks each listed name separately from the node and
 sets it to `None` with the written walk `SetAlong`; an `All` met on the way
 becomes a partial grant, as in the written build.
 */
module Intended {
  import S = Statements
  import opened Actions
  import opened Permissions
  import PermissionLemmas

  /** Grants every action starting with `path`; an `All` met on the way already does. */
  function GrantPath(t: AllowedActions, path: seq<string>): AllowedActions
    decreases |path|
  {
    if t.All? || |path| == 0 then All
    else
      var m := if t.Some? then t.actions else map[];
      var child := if path[0] in m then m[path[0]] else None;
      Some(m[path[0] := GrantPath(child, path[1..])])
  }

  /** Grants each name in turn, every one walked from the node itself. */
  function GrantEach(t: AllowedActions, names: seq<ActionName>): AllowedActions
    decreases |names|
  {
    if |names| == 0 then t else GrantEach(GrantPath(t, names[0]), names[1..])
  }

  /** Revokes each name in turn, every one walked from the node itself. */
  function RevokeEach(t: AllowedActions, names: seq<ActionName>): AllowedActions
    decreases |names|
  {
    if |names| == 0 then t else RevokeEach(SetAlong(t, names[0], None), names[1..])
  }

  /** The change one statement makes to each node it names. */
  function IntendedUpdate(s: S.Statement): AllowedActions -> AllowedActions {
    match s.actions
    case All => (t: AllowedActions) => if s.allowed then All else None
    case List(names) => (t: AllowedActions) => if s.allowed then GrantEach(t, names) else RevokeEach(t, names)
  }

  function ApplyIntended(p: Permissions, s: S.Statement): Permissions {
    UpdateEach(p, s.resources, IntendedUpdate(s))
  }

  /** The corrected `From<Vec<Statement>> for Permissions`. */
  function BuildIntended(statements: seq<S.Statement>): Permissions
    decreases |statements|
  {
    if |statements| == 0 then Default()
    else ApplyIntended(BuildIntended(statements[..|statements| - 1]), statements[|statements| - 1])
  }

  /** A grant adds exactly the actions starting with `path` and takes nothing away. */
  lemma {:induction false} GrantPathAdmits(t: AllowedActions, path: seq<string>, action: ActionName)
    ensures ActionAllowed(GrantPath(t, path), action) <==> ActionAllowed(t, action) || IsPrefix(path, action)
    decreases |path|
  {
    if !t.All? && |path| > 0 && |action| > 0 {
      var m := if t.Some? then t.actions else map[];
      var child := if path[0] in m then m[path[0]] else None;
      GrantPathAdmits(child, path[1..], action[1..]);
      if action[0] == path[0] {
        assert IsPrefix(path, action) <==> IsPrefix(path[1..], action[1..]);
      }
    }
  }

  /** Granting a list adds exactly the actions that start with one of its names. */
  lemma {:induction false} GrantEachAdmits(t: AllowedActions, names: seq<ActionName>, action: ActionName)
    ensures ActionAllowed(GrantEach(t, names), action) <==>
            ActionAllowed(t, action) || exists i :: 0 <= i < |names| && IsPrefix(names[i], action)
    decreases |names|
  {
    if |names| > 0 {
      GrantPathAdmits(t, names[0], action);
      GrantEachAdmits(GrantPath(t, names[0]), names[1..], action);
      if exists i :: 0 <= i < |names[1..]| && IsPrefix(names[1..][i], action) {
        var i :| 0 <= i < |names[1..]| && IsPrefix(names[1..][i], action);
        assert IsPrefix(names[i + 1], action);
      }
      if i :| 0 <= i < |names| && IsPrefix(names[i], action) {
        if i > 0 {
          assert IsPrefix(names[1..][i - 1], action);
        }
      }
    }
  }

  /**
   On each node an allowing `List` statement names, the action trie afterwards
   admits what it admitted before and every action starting with a listed name,
   and nothing else; other nodes are unchanged.
   */
  lemma {:induction false} IntendedListGrant(
    p: Permissions, resources: seq<S.ResourceName>, s: S.Statement, path: S.ResourceName, action: ActionName)
    requires s.actions.List? && s.allowed
    ensures ActionAllowed(NodeAllowed(UpdateEach(p, resources, IntendedUpdate(s)), path), action) <==>
            ActionAllowed(NodeAllowed(p, path), action)
            || (path in resources && exists i :: 0 <= i < |s.actions.names| && IsPrefix(s.actions.names[i], action))
    decreases |resources|
  {
    var update := IntendedUpdate(s);
    if |resources| > 0 {
      var first := UpdateAt(p, resources[0], update);
      IntendedListGrant(first, resources[1..], s, path, action);
      PermissionLemmas.NodeAllowedAfterUpdateAt(p, resources[0], update, path);
      GrantEachAdmits(NodeAllowed(p, path), s.actions.names, action);
      assert path in resources <==> path == resources[0] || path in resources[1..] by {
        assert resources == [resources[0]] + resources[1..];
      }
    }
  }

  /** An allowing statement only widens: every pair allowed before is allowed after. */
  lemma AllowingStatementWidens(p: Permissions, s: S.Statement, resource: S.ResourceName, action: ActionName)
    requires s.allowed
    requires AllowedTo(p, resource, action)
    ensures AllowedTo(ApplyIntended(p, s), resource, action)
  {
    PermissionLemmas.AllowedToHasMatchingGrant(p, resource, action);
    var w :| Matches(w, resource) && ActionAllowed(NodeAllowed(p, w), action);
    var q := ApplyIntended(p, s);
    if s.actions.List? {
      IntendedListGrant(p, s.resources, s, w, action);
    } else {
      IntendedAllGrant(p, s.resources, s, w, action);
    }
    PermissionLemmas.MatchingGrantAllows(q, w, resource, action);
  }

  lemma {:induction false} IntendedAllGrant(
    p: Permissions, resources: seq<S.ResourceName>, s: S.Statement, path: S.ResourceName, action: ActionName)
    requires s.actions == S.All && s.allowed
    ensures ActionAllowed(NodeAllowed(UpdateEach(p, resources, IntendedUpdate(s)), path), action) <==>
            ActionAllowed(NodeAllowed(p, path), action) || path in resources
    decreases |resources|
  {
    var update := IntendedUpdate(s);
    if |resources| > 0 {
      var first := UpdateAt(p, resources[0], update);
      IntendedAllGrant(first, resources[1..], s, path, action);
      PermissionLemmas.NodeAllowedAfterUpdateAt(p, resources[0], update, path);
      assert path in resources <==> path == resources[0] || path in resources[1..] by {
        assert resources == [resources[0]] + resources[1..];
      }
    }
  }

  /**
   What a corrected trie built from one allowing `List` statement allows:
   the pairs whose resource a listed resource matches and whose action starts
   with one of the listed names.
   */
  lemma IntendedSingleListStatement(s: S.Statement, resource: S.ResourceName, action: ActionName)
    requires s.actions.List? && s.allowed
    ensures AllowedTo(BuildIntended([s]), resource, action) <==>
            (exists i :: 0 <= i < |s.actions.names| && IsPrefix(s.actions.names[i], action))
            && exists r :: r in s.resources && Matches(r, resource)
  {
    assert [s][..0] == [];
    var p := BuildIntended([s]);
    assert p == ApplyIntended(BuildIntended([]), s);
    forall w
      ensures ActionAllowed(NodeAllowed(p, w), action) <==>
              w in s.resources && exists i :: 0 <= i < |s.actions.names| && IsPrefix(s.actions.names[i], action)
    {
      IntendedListGrant(Default(), s.resources, s, w, action);
      PermissionLemmas.DefaultNodeAllowed(w);
    }
    PermissionLemmas.AllowedToIffMatchingGrant(p, resource, action);
    if (exists i :: 0 <= i < |s.actions.names| && IsPrefix(s.actions.names[i], action))
       && exists r :: r in s.resources && Matches(r, resource) {
      var r :| r in s.resources && Matches(r, resource);
      assert ActionAllowed(NodeAllowed(p, r), action);
    }
  }
}

=== FILE: permission_lemmas.dfy ===
/**
 Properties of the permission trie: the action walk, the resource descent,
 and what building from statements leaves at each node.
 */
module PermissionLemmas {
  import S = Statements
  import opened Actions
  import opened Permissions

  // ---------------------------------------------------------------------------
  // The action walk
  // ---------------------------------------------------------------------------

  /** The four ways the action walk ends. */
  lemma ActionWalkCases(t: AllowedActions, action: ActionName)
    ensures !ActionAllowed(None, action)
    ensures ActionAllowed(All, action)
    ensures t.Some? && |action| > 0 && action[0] !in t.actions ==> !ActionAllowed(t, action)
    ensures ActionAllowed(t, []) <==> t == All
  {
  }

  /**
   The walk allows `action` exactly when some prefix of it (possibly all of it,
   possibly none) leads through partial grants to `All`.
   */
  lemma {:induction false} ActionAllowedIffGrantedPrefix(t: AllowedActions, action: ActionName)
    ensures ActionAllowed(t, action) <==> exists k :: 0 <= k <= |action| && GrantedAt(t, action[..k])
  {
    if ActionAllowed(t, action) {
      if t.All? {
        assert GrantedAt(t, action[..0]);
      } else {
        var head := action[0];
        var tail := action[1..];
        ActionAllowedIffGrantedPrefix(t.actions[head], tail);
        var k :| 0 <= k <= |tail| && GrantedAt(t.actions[head], tail[..k]);
        assert action[..k + 1][1..] == tail[..k];
        assert GrantedAt(t, action[..k + 1]);
      }
    }
    if k :| 0 <= k <= |action| && GrantedAt(t, action[..k]) {
      if k == 0 {
        assert t.All?;
      } else {
        var head := action[0];
        var tail := action[1..];
        assert action[..k][1..] == tail[..k - 1];
        assert GrantedAt(t.actions[head], tail[..k - 1]);
        ActionAllowedIffGrantedPrefix(t.actions[head], tail);
      }
    }
  }

  // ---------------------------------------------------------------------------
  // The resource descent
  // ---------------------------------------------------------------------------

  /** The default trie has no node anywhere with a grant. */
  lemma {:induction false} DefaultNodeAllowed(path: S.ResourceName)
    ensures NodeAllowed(Default(), path) == None
  {
  }

  /**
   `allowed_to` allows exactly when some pattern of exact or `Any` segments
   matching a prefix of the resource leads to a node whose grant admits the
   action. Exact is tried before `Any`, but either suffices.
   */
  lemma {:induction false} AllowedToIffMatchingGrant(p: Permissions, resource: S.ResourceName, action: ActionName)
    ensures AllowedTo(p, resource, action) <==>
            exists pattern :: Matches(pattern, resource) && ActionAllowed(NodeAllowed(p, pattern), action)
  {
    if AllowedTo(p, resource, action) {
      AllowedToHasMatchingGrant(p, resource, action);
    }
    if pattern :| Matches(pattern, resource) && ActionAllowed(NodeAllowed(p, pattern), action) {
      MatchingGrantAllows(p, pattern, resource, action);
    }
  }

  lemma {:induction false} AllowedToHasMatchingGrant(p: Permissions, resource: S.ResourceName, action: ActionName)
    requires AllowedTo(p, resource, action)
    ensures exists pattern :: Matches(pattern, resource) && ActionAllowed(NodeAllowed(p, pattern), action)
    decreases |resource|
  {
    if |resource| > 0 && resource[0] in p.children && AllowedTo(p.children[resource[0]], resource[1..], action) {
      AllowedToHasMatchingGrant(p.children[resource[0]], resource[1..], action);
      var rest :| Matches(rest, resource[1..]) && ActionAllowed(NodeAllowed(p.children[resource[0]], rest), action);
      var pattern := [resource[0]] + rest;
      assert pattern[1..] == rest;
      assert Matches(pattern, resource);
    } else if |resource| > 0 && S.Any in p.children && AllowedTo(p.children[S.Any], resource[1..], action) {
      AllowedToHasMatchingGrant(p.children[S.Any], resource[1..], action);
      var rest :| Matches(rest, resource[1..]) && ActionAllowed(NodeAllowed(p.children[S.Any], rest), action);
      var pattern := [S.Any] + rest;
      assert pattern[1..] == rest;
      assert Matches(pattern, resource);
    } else {
      assert Matches([], resource);
      assert NodeAllowed(p, []) == p.allowed;
    }
  }

  /** A grant at a node whose path matches the resource allows the action there. */
  lemma {:induction false} MatchingGrantAllows(p: Permissions, pattern: S.ResourceName, resource: S.ResourceName, action: ActionName)
    requires Matches(pattern, resource)
    requires ActionAllowed(NodeAllowed(p, pattern), action)
    ensures AllowedTo(p, resource, action)
    decreases |pattern|
  {
    if |pattern| > 0 {
      assert pattern[0] in p.children;
      assert Matches(pattern[1..], resource[1..]);
      MatchingGrantAllows(p.children[pattern[0]], pattern[1..], resource[1..], action);
    }
  }

  /**
   Resource monotonicity: what is allowed on a resource is allowed on every
   resource below it, because a node's own grant is the fallback after its
   children fail.
   */
  lemma {:induction false} AllowedToExtends(p: Permissions, resource: S.ResourceName, suffix: S.ResourceName, action: ActionName)
    requires AllowedTo(p, resource, action)
    ensures AllowedTo(p, resource + suffix, action)
    decreases |resource|
  {
    var longer := resource + suffix;
    if |resource| > 0 {
      assert longer[0] == resource[0];
      assert longer[1..] == resource[1..] + suffix;
      if resource[0] in p.children && AllowedTo(p.children[resource[0]], resource[1..], action) {
        AllowedToExtends(p.children[resource[0]], resource[1..], suffix, action);
      } else if S.Any in p.children && AllowedTo(p.children[S.Any], resource[1..], action) {
        AllowedToExtends(p.children[S.Any], resource[1..], suffix, action);
      }
    }
  }

  /** A default trie denies every resource and action, the empty action name included. */
  lemma DefaultDeniesEverything(resource: S.ResourceName, action: ActionName)
    ensures !AllowedTo(Default(), resource, action)
  {
    if AllowedTo(Default(), resource, action) {
      AllowedToHasMatchingGrant(Default(), resource, action);
      var pattern :| Matches(pattern, resource) && ActionAllowed(NodeAllowed(Default(), pattern), action);
      DefaultNodeAllowed(pattern);
    }
  }

  // ---------------------------------------------------------------------------
  // The build
  // ---------------------------------------------------------------------------

  /** Walking the same path twice to the same leaf changes nothing the second time. */
  lemma {:induction false} SetAlongIdempotent(t: AllowedActions, path: seq<string>, leaf: AllowedActions)
    ensures SetAlong(SetAlong(t, path, leaf), path, leaf) == SetAlong(t, path, leaf)
    decreases |path|
  {
    if |path| > 0 {
      var m := if t.Some? then t.actions else map[];
      var child := if path[0] in m then m[path[0]] else None;
      var once := SetAlong(child, path[1..], leaf);
      SetAlongIdempotent(child, path[1..], leaf);
      assert m[path[0] := once][path[0] := SetAlong(once, path[1..], leaf)] == m[path[0] := once];
    }
  }

  /**
   Walking `path` from an empty trie and setting `leaf` admits exactly the
   actions that start with `path` and whose remaining segments `leaf` admits.
   */
  lemma {:induction false} SetAlongFromNone(path: seq<string>, leaf: AllowedActions, action: ActionName)
    ensures ActionAllowed(SetAlong(None, path, leaf), action) <==>
            IsPrefix(path, action) && ActionAllowed(leaf, action[|path|..])
    decreases |path|
  {
    if |path| > 0 && |action| > 0 {
      SetAlongFromNone(path[1..], leaf, action[1..]);
      if |path| <= |action| {
        assert action[1..][|path| - 1..] == action[|path|..];
      }
      if action[0] == path[0] {
        assert IsPrefix(path, action) <==> IsPrefix(path[1..], action[1..]);
      }
    }
  }

  /** The grant reached along `path` after `SetAlong` is the leaf just set. */
  lemma {:induction false} SetAlongReachesLeaf(t: AllowedActions, path: seq<string>)
    ensures GrantedAt(SetAlong(t, path, All), path)
    decreases |path|
  {
    if |path| > 0 {
      var m := if t.Some? then t.actions else map[];
      var child := if path[0] in m then m[path[0]] else None;
      SetAlongReachesLeaf(child, path[1..]);
    }
  }

  /** Setting `None` along `path` denies every action that starts with `path`, whatever the trie held. */
  lemma {:induction false} SetAlongNoneDenies(t: AllowedActions, path: seq<string>, action: ActionName)
    requires IsPrefix(path, action)
    ensures !ActionAllowed(SetAlong(t, path, None), action)
    decreases |path|
  {
    if |path| > 0 {
      var m := if t.Some? then t.actions else map[];
      var child := if path[0] in m then m[path[0]] else None;
      assert IsPrefix(path[1..], action[1..]);
      SetAlongNoneDenies(child, path[1..], action[1..]);
    }
  }

  /**
   Deeper structure off the walked path survives: a name granted before that
   neither extends `path` nor is extended by it is still granted afterwards.
   */
  lemma {:induction false} SetAlongKeepsDivergingGrants(
    t: AllowedActions, path: seq<string>, leaf: AllowedActions, g: seq<string>)
    requires GrantedAt(t, g) && !IsPrefix(g, path) && !IsPrefix(path, g)
    ensures GrantedAt(SetAlong(t, path, leaf), g)
    decreases |path|
  {
    assert |path| > 0 && |g| > 0;
    var m := t.actions;
    if g[0] == path[0] {
      assert IsPrefix(g, path) <==> IsPrefix(g[1..], path[1..]);
      assert IsPrefix(path, g) <==> IsPrefix(path[1..], g[1..]);
      SetAlongKeepsDivergingGrants(m[path[0]], path[1..], leaf, g[1..]);
    }
  }

  /** Off the walked path the walk allows nothing new: what it allows there, the trie allowed before. */
  lemma {:induction false} SetAlongOutsidePath(t: AllowedActions, path: seq<string>, leaf: AllowedActions, action: ActionName)
    requires !IsPrefix(path, action) && ActionAllowed(SetAlong(t, path, leaf), action)
    ensures ActionAllowed(t, action)
    decreases |path|
  {
    assert |path| > 0 && |action| > 0;
    if !t.All? && action[0] == path[0] {
      var m := if t.Some? then t.actions else map[];
      var child := if path[0] in m then m[path[0]] else None;
      assert IsPrefix(path, action) <==> IsPrefix(path[1..], action[1..]);
      SetAlongOutsidePath(child, path[1..], leaf, action[1..]);
    }
  }

  /**
   Nothing else changes: updating the node at `target` changes the grant of
   that node only; every other path keeps its grant.
   */
  lemma {:induction false} NodeAllowedAfterUpdateAt(
    p: Permissions, target: S.ResourceName, update: AllowedActions -> AllowedActions, path: S.ResourceName)
    ensures NodeAllowed(UpdateAt(p, target, update), path) ==
            if path == target then update(NodeAllowed(p, path)) else NodeAllowed(p, path)
    decreases |target|
  {
    var q := UpdateAt(p, target, update);
    if |target| > 0 && |path| > 0 {
      var child := if target[0] in p.children then p.children[target[0]] else Default();
      if path[0] == target[0] {
        NodeAllowedAfterUpdateAt(child, target[1..], update, path[1..]);
        assert path == target <==> path[1..] == target[1..] by {
          if path[1..] == target[1..] {
            assert path == [path[0]] + path[1..];
            assert target == [target[0]] + target[1..];
          }
        }
        if target[0] !in p.children {
          DefaultNodeAllowed(path[1..]);
        }
      }
    }
  }

  /**
   After a statement's update is applied to each of `resources`, every named
   node holds the update of its former grant, and every other node keeps its
   own. The node is updated once however often it is named, since a second
   walk of the statement's path changes nothing (`SetAlongIdempotent`).
   */
  lemma {:induction false} NodeAllowedAfterUpdateEach(
    p: Permissions, resources: seq<S.ResourceName>, s: S.Statement, path: S.ResourceName)
    ensures NodeAllowed(UpdateEach(p, resources, StatementUpdate(s)), path) ==
            if path in resources then StatementUpdate(s)(NodeAllowed(p, path)) else NodeAllowed(p, path)
    decreases |resources|
  {
    var update := StatementUpdate(s);
    if |resources| > 0 {
      var first := UpdateAt(p, resources[0], update);
      NodeAllowedAfterUpdateEach(first, resources[1..], s, path);
      NodeAllowedAfterUpdateAt(p, resources[0], update, path);
      assert path in resources <==> path == resources[0] || path in resources[1..] by {
        assert resources == [resources[0]] + resources[1..];
      }
      SetAlongIdempotent(NodeAllowed(p, path), ActionPath(s.actions), if s.allowed then All else None);
    }
  }

  /**
   One statement: each node it names has walked the statement's action path
   and set the leaf to `All` or `None` per `allowed`; no other node changes.
   */
  lemma ApplyStatementNodes(p: Permissions, s: S.Statement, path: S.ResourceName)
    ensures NodeAllowed(ApplyStatement(p, s), path) ==
            if path in s.resources
            then SetAlong(NodeAllowed(p, path), ActionPath(s.actions), if s.allowed then All else None)
            else NodeAllowed(p, path)
  {
    NodeAllowedAfterUpdateEach(p, s.resources, s, path);
  }

  /** Granting `ActionNameList::All` allows every action on each resource the statement names. */
  lemma AllActionsGrantAllowsEverything(p: Permissions, s: S.Statement, resource: S.ResourceName, action: ActionName)
    requires s.actions == S.All && s.allowed
    requires resource in s.resources
    ensures NodeAllowed(ApplyStatement(p, s), resource) == All
    ensures AllowedTo(ApplyStatement(p, s), resource, action)
  {
    ApplyStatementNodes(p, s, resource);
    assert Matches(resource, resource);
    MatchingGrantAllows(ApplyStatement(p, s), resource, resource, action);
  }

  /**
   Granting a single name `List([prefix])` allows, on each resource the
   statement names, every action that starts with `prefix`.
   */
  lemma SingleNameGrantAllowsExtensions(p: Permissions, s: S.Statement, resource: S.ResourceName, action: ActionName)
    requires s.actions.List? && |s.actions.names| == 1 && s.allowed
    requires resource in s.resources
    requires IsPrefix(s.actions.names[0], action)
    ensures AllowedTo(ApplyStatement(p, s), resource, action)
  {
    var prefix := s.actions.names[0];
    assert ActionPath(s.actions) == prefix by {
      assert Chain(s.actions.names) == prefix + Chain([]);
    }
    ApplyStatementNodes(p, s, resource);
    var t := NodeAllowed(ApplyStatement(p, s), resource);
    SetAlongReachesLeaf(NodeAllowed(p, resource), prefix);
    assert action[..|prefix|] == prefix;
    ActionAllowedIffGrantedPrefix(t, action);
    assert Matches(resource, resource);
    MatchingGrantAllows(ApplyStatement(p, s), resource, resource, action);
  }

  /** A statement with `allowed = false` and `ActionNameList::All` erases the grant of every node it names. */
  lemma DenyAllErasesNode(p: Permissions, s: S.Statement, resource: S.ResourceName, action: ActionName)
    requires s.actions == S.All && !s.allowed
    requires resource in s.resources
    ensures NodeAllowed(ApplyStatement(p, s), resource) == None
    ensures !ActionAllowed(NodeAllowed(ApplyStatement(p, s), resource), action)
  {
    ApplyStatementNodes(p, s, resource);
  }

  /**
   A denying statement revokes, on each node it names, every action that
   starts with its action path, whatever that node granted before.
   */
  lemma DenyingStatementRevokes(p: Permissions, s: S.Statement, resource: S.ResourceName, action: ActionName)
    requires !s.allowed && resource in s.resources
    requires IsPrefix(ActionPath(s.actions), action)
    ensures !ActionAllowed(NodeAllowed(ApplyStatement(p, s), resource), action)
  {
    ApplyStatementNodes(p, s, resource);
    SetAlongNoneDenies(NodeAllowed(p, resource), ActionPath(s.actions), action);
  }

  /**
   What a trie built from one statement allows: exactly the pairs whose
   resource is matched by a resource of the statement (segment by segment,
   `Any` matching anything, a prefix sufficing) and whose action starts with
   the statement's action path, when the statement allows.
   */
  lemma SingleStatementBuild(s: S.Statement, resource: S.ResourceName, action: ActionName)
    ensures AllowedTo(Build([s]), resource, action) <==>
            s.allowed && IsPrefix(ActionPath(s.actions), action)
            && exists r :: r in s.resources && Matches(r, resource)
  {
    var path := ActionPath(s.actions);
    var leaf := if s.allowed then All else None;
    assert [s][..0] == [];
    var p := Build([s]);
    assert p == ApplyStatement(Build([]), s);
    forall w
      ensures NodeAllowed(p, w) == if w in s.resources then SetAlong(None, path, leaf) else None
    {
      ApplyStatementNodes(Default(), s, w);
      DefaultNodeAllowed(w);
    }
    AllowedToIffMatchingGrant(p, resource, action);
    if AllowedTo(p, resource, action) {
      var w :| Matches(w, resource) && ActionAllowed(NodeAllowed(p, w), action);
      assert w in s.resources;
      SetAlongFromNone(path, leaf, action);
    }
    if s.allowed && IsPrefix(path, action) && exists r :: r in s.resources && Matches(r, resource) {
      var r :| r in s.resources && Matches(r, resource);
      SetAlongFromNone(path, leaf, action);
      assert ActionAllowed(NodeAllowed(p, r), action);
    }
  }
}

=== FILE: permissions.dfy ===
/**
 The permission trie (actionable/src/permissions.rs): a tree of resource
 nodes keyed by `Identifier`, each holding a nested trie of allowed action
 segments; the `allowed_to` evaluation; and the build from statements.
 */
module Permissions {
  import S = Statements
  import opened Actions

  /**
   `AllowedActions`: nothing allowed here, a partial grant keyed by the next
   action segment, or every action. The default is `None`.
   */
  datatype AllowedActions = None | Some(actions: map<string, AllowedActions>) | All

  /**
   `Permissions`: the children of a resource node keyed by the next segment
   (an absent children map is the empty map) and the node's own grant.
   */
  datatype Permissions = Node(children: map<S.Identifier, Permissions>, allowed: AllowedActions)

  /** `Permissions::default()`: no children, nothing allowed. */
  function Default(): (p: Permissions)
    ensures p.children == map[] && p.allowed == None
  {
    Node(map[], None)
  }

  // ---------------------------------------------------------------------------
  // Evaluation
  // ---------------------------------------------------------------------------

  /**
   Walks `action`'s segments through the action trie `allowed`: `None` denies,
   `All` allows whatever segments remain, a partial grant descends into the
   entry for the next segment or denies when there is none. Once the segments
   are used up, the action is allowed iff the trie reached is exactly `All`.
   */
  function ActionAllowed(allowed: AllowedActions, action: ActionName): bool
    decreases |action|
  {
    if |action| == 0 then allowed.All?
    else
      match allowed
      case None => false
      case All => true
      case Some(actions) => action[0] in actions && ActionAllowed(actions[action[0]], action[1..])
  }

  /**
   `Permissions::allowed_to`: for a non-empty resource name, tries the child
   for the exact first segment, then the `Any` child, each on the rest of the
   name; if neither allows, falls back to this node's own grant.
   */
  function AllowedTo(p: Permissions, resource: S.ResourceName, action: ActionName): bool
    decreases |resource|
  {
    (|resource| > 0 && resource[0] in p.children
      && AllowedTo(p.children[resource[0]], resource[1..], action))
    || (|resource| > 0 && S.Any in p.children
      && AllowedTo(p.children[S.Any], resource[1..], action))
    || ActionAllowed(p.allowed, action)
  }

  /**
   The loop of `allowed_to` that walks the action trie, written as the loop it
   is; it computes the same verdict as `ActionAllowed`.
   */
  method EvaluateAction(allowed: AllowedActions, action: ActionName) returns (ok: bool)
    ensures ok == ActionAllowed(allowed, action)
  {
    var cursor := allowed;
    var i := 0;
    while i < |action|
      invariant 0 <= i <= |action|
      invariant ActionAllowed(cursor, action[i..]) == ActionAllowed(allowed, action)
    {
      match cursor {
        case None => return false;
        case All => return true;
        case Some(actions) =>
          if action[i] !in actions {
            return false;
          }
          assert action[i..][1..] == action[i + 1..];
          cursor := actions[action[i]];
      }
      i := i + 1;
    }
    ok := cursor.All?;
  }

  // ---------------------------------------------------------------------------
  // Build from statements
  // ---------------------------------------------------------------------------

  /**
   The action path the build walks for one statement. The cursor is not reset
   between the names of a `List`, so their segments chain into one path; `All`
   walks nothing.
   */
  function ActionPath(actions: S.ActionNameList): seq<string> {
    match actions
    case All => []
    case List(names) => Chain(names)
  }

  /** The segments of every name, one after another. */
  function Chain(names: seq<ActionName>): seq<string> {
    if |names| == 0 then [] else names[0] + Chain(names[1..])
  }

  /**
   Walks `path` through the action trie `t`, turning any `All` or `None` met
   on the way into a fresh partial grant and creating missing entries as
   `None`, then sets what it reached to `leaf`.
   */
  function SetAlong(t: AllowedActions, path: seq<string>, leaf: AllowedActions): AllowedActions
    decreases |path|
  {
    if |path| == 0 then leaf
    else
      var m := if t.Some? then t.actions else map[];
      var child := if path[0] in m then m[path[0]] else None;
      Some(m[path[0] := SetAlong(child, path[1..], leaf)])
  }

  /** The change one statement makes to the action trie of each node it names. */
  function StatementUpdate(s: S.Statement): AllowedActions -> AllowedActions {
    var path := ActionPath(s.actions);
    var leaf := if s.allowed then All else None;
    t => SetAlong(t, path, leaf)
  }

  /**
   Walks `resource` from `p`, creating missing nodes with the default value,
   and replaces the grant of the node reached by `update` of it.
   */
  function UpdateAt(p: Permissions, resource: S.ResourceName, update: AllowedActions -> AllowedActions): Permissions
    decreases |resource|
  {
    if |resource| == 0 then p.(allowed := update(p.allowed))
    else
      var child := if resource[0] in p.children then p.children[resource[0]] else Default();
      p.(children := p.children[resource[0] := UpdateAt(child, resource[1..], update)])
  }

  /** Applies `update` at each resource in turn. */
  function UpdateEach(p: Permissions, resources: seq<S.ResourceName>, update: AllowedActions -> AllowedActions): Permissions
    decreases |resources|
  {
    if |resources| == 0 then p
    else UpdateEach(UpdateAt(p, resources[0], update), resources[1..], update)
  }

  /** One statement applied to every resource it names. */
  function ApplyStatement(p: Permissions, s: S.Statement): Permissions {
    UpdateEach(p, s.resources, StatementUpdate(s))
  }

  /** `From<Vec<Statement>> for Permissions`: the statements applied in order to the default trie. */
  function Build(statements: seq<S.Statement>): Permissions
    decreases |statements|
  {
    if |statements| == 0 then Default()
    else ApplyStatement(Build(statements[..|statements| - 1]), statements[|statements| - 1])
  }

  /** The loops of `From<Vec<Statement>>`, over statements and then over their resources. */
  method FromStatements(statements: seq<S.Statement>) returns (p: Permissions)
    ensures p == Build(statements)
  {
    p := Default();
    var i := 0;
    while i < |statements|
      invariant 0 <= i <= |statements|
      invariant p == Build(statements[..i])
    {
      var s := statements[i];
      var update := StatementUpdate(s);
      ghost var start := p;
      var j := 0;
      while j < |s.resources|
        invariant 0 <= j <= |s.resources|
        invariant UpdateEach(p, s.resources[j..], update) == ApplyStatement(start, s)
      {
        assert s.resources[j..][1..] == s.resources[j + 1..];
        p := UpdateAt(p, s.resources[j], update);
        j := j + 1;
      }
      assert statements[..i + 1][..i] == statements[..i];
      i := i + 1;
    }
    assert statements[..i] == statements;
  }

  // ---------------------------------------------------------------------------
  // Reference views used by the lemmas
  // ---------------------------------------------------------------------------

  /** The grant of the node at exactly `path` below `p`, or `None` when there is no such node. */
  function NodeAllowed(p: Permissions, path: S.ResourceName): AllowedActions
    decreases |path|
  {
    if |path| == 0 then p.allowed
    else if path[0] in p.children then NodeAllowed(p.children[path[0]], path[1..])
    else None
  }

  /**
   `pattern` matches a prefix of `resource`, segment by segment, each segment
   either equal to the resource's or the wildcard `Any`.
   */
  predicate Matches(pattern: S.ResourceName, resource: S.ResourceName) {
    |pattern| <= |resource|
    && forall i :: 0 <= i < |pattern| ==> pattern[i] == S.Any || pattern[i] == resource[i]
  }

  /** True iff the action trie `t` has `All` at exactly `path`, reached through partial grants only. */
  predicate GrantedAt(t: AllowedActions, path: seq<string>)
    decreases |path|
  {
    if |path| == 0 then t.All?
    else t.Some? && path[0] in t.actions && GrantedAt(t.actions[path[0]], path[1..])
  }

  predicate IsPrefix<T(==)>(pre: seq<T>, s: seq<T>) {
    |pre| <= |s| && s[..|pre|] == pre
  }
}

=== FILE: scenarios.dfy ===
/**
 The cases of actionable/src/tests.rs stated about the model, and the
 inputs on which the build as written departs from them.
 */
module Scenarios {
  import S = Statements
  import opened Actions
  import DeriveAction
  import opened Permissions
  import PermissionLemmas
  import Intended

  // The derived enums of the tests: TestActions { DoSomething, Post(PostActions) }
  // and PostActions { Read, Update, Delete }.

  function PostAction(ident: string): DeriveAction.ActionValue {
    DeriveAction.Variant("Post", [DeriveAction.Variant(ident, [])])
  }

  /** The derived names of the tests' actions: outermost variant first. */
  lemma DerivedTestNames()
    ensures DeriveAction.Name(PostAction("Read")) == DeriveAction.Named(["Post", "Read"])
    ensures DeriveAction.Name(PostAction("Delete")) == DeriveAction.Named(["Post", "Delete"])
    ensures DeriveAction.Name(DeriveAction.Variant("DoSomething", [])) == DeriveAction.Named(["DoSomething"])
    ensures DeriveAction.Name(DeriveAction.Unit) == DeriveAction.Named([])
  {
  }

  const someResource: S.ResourceName := S.Named(S.String("someresource"))
  const allActionsAllowed: S.ResourceName := S.Named(S.String("all-actions-allowed"))
  const onlyPost: S.ResourceName := S.Named(S.String("only-post-actions-allowed"))

  const readEverywhere := S.Statement([S.AnyName()], S.FromAction(PostAction("Read")), true)
  const everythingHere := S.Statement([allActionsAllowed], S.All, true)
  const postHere := S.Statement([onlyPost], S.FromName(["Post"]), true)

  /** The node grants of the trie the `basics` test builds. */
  lemma BasicsNodes(w: S.ResourceName)
    ensures NodeAllowed(Build([readEverywhere, everythingHere, postHere]), w) ==
            if w == S.AnyName() then SetAlong(None, ["Post", "Read"], All)
            else if w == allActionsAllowed then All
            else if w == onlyPost then SetAlong(None, ["Post"], All)
            else None
  {
    var all := [readEverywhere, everythingHere, postHere];
    assert all[..2] == [readEverywhere, everythingHere];
    assert all[..2][..1] == [readEverywhere];
    assert [readEverywhere][..0] == [];
    var p0 := Build([]);
    var p1 := Build([readEverywhere]);
    var p2 := Build([readEverywhere, everythingHere]);
    assert p1 == ApplyStatement(p0, readEverywhere);
    assert p2 == ApplyStatement(p1, everythingHere);
    assert Build(all) == ApplyStatement(p2, postHere);
    assert ActionPath(readEverywhere.actions) == ["Post", "Read"] by {
      assert Chain([["Post", "Read"]]) == ["Post", "Read"] + Chain([]);
    }
    assert ActionPath(postHere.actions) == ["Post"] by {
      assert Chain([["Post"]]) == ["Post"] + Chain([]);
    }
    PermissionLemmas.DefaultNodeAllowed(w);
    PermissionLemmas.ApplyStatementNodes(p0, readEverywhere, w);
    PermissionLemmas.ApplyStatementNodes(p1, everythingHere, w);
    PermissionLemmas.ApplyStatementNodes(p2, postHere, w);
  }

  /** The `basics` trie on a one-segment string resource: which actions it allows. */
  lemma BasicsOnNamed(name: string, a: ActionName)
    ensures AllowedTo(Build([readEverywhere, everythingHere, postHere]), [S.String(name)], a) <==>
            IsPrefix(["Post", "Read"], a)
            || [S.String(name)] == allActionsAllowed
            || ([S.String(name)] == onlyPost && IsPrefix(["Post"], a))
  {
    var p := Build([readEverywhere, everythingHere, postHere]);
    var r := [S.String(name)];
    PermissionLemmas.SetAlongFromNone(["Post", "Read"], All, a);
    PermissionLemmas.SetAlongFromNone(["Post"], All, a);
    PermissionLemmas.AllowedToIffMatchingGrant(p, r, a);
    if AllowedTo(p, r, a) {
      var w :| Matches(w, r) && ActionAllowed(NodeAllowed(p, w), a);
      BasicsNodes(w);
      assert w == [] || w == S.AnyName() || w == r by {
        if |w| == 1 {
          assert w == [w[0]];
        }
      }
    } else {
      BasicsNodes([]);
      BasicsNodes(S.AnyName());
      BasicsNodes(r);
      assert Matches(S.AnyName(), r);
      assert Matches(r, r);
    }
  }

  /** The `basics` test: its four positive checks. */
  lemma BasicsAllowed()
    ensures AllowedTo(Build([readEverywhere, everythingHere, postHere]), someResource, ["Post", "Read"])
    ensures AllowedTo(Build([readEverywhere, everythingHere, postHere]), allActionsAllowed, ["Post", "Update"])
    ensures AllowedTo(Build([readEverywhere, everythingHere, postHere]), allActionsAllowed, ["DoSomething"])
    ensures AllowedTo(Build([readEverywhere, everythingHere, postHere]), onlyPost, ["Post", "Delete"])
  {
    BasicsOnNamed("someresource", ["Post", "Read"]);
    assert IsPrefix(["Post", "Read"], ["Post", "Read"]);
    BasicsOnNamed("all-actions-allowed", ["Post", "Update"]);
    BasicsOnNamed("all-actions-allowed", ["DoSomething"]);
    BasicsOnNamed("only-post-actions-allowed", ["Post", "Delete"]);
    assert IsPrefix(["Post"], ["Post", "Delete"]);
  }

  /** The `basics` test: its three negative checks. */
  lemma BasicsDenied()
    ensures !AllowedTo(Build([readEverywhere, everythingHere, postHere]), someResource, ["Post", "Update"])
    ensures !AllowedTo(Build([readEverywhere, everythingHere, postHere]), someResource, ["Post", "Delete"])
    ensures !AllowedTo(Build([readEverywhere, everythingHere, postHere]), onlyPost, ["DoSomething"])
  {
    BasicsOnNamed("someresource", ["Post", "Update"]);
    assert |"Update"| != |"Read"|;
    assert ["Post", "Update"][..2][1] != ["Post", "Read"][1];
    BasicsOnNamed("someresource", ["Post", "Delete"]);
    assert |"Delete"| != |"Read"|;
    assert ["Post", "Delete"][..2][1] != ["Post", "Read"][1];
    BasicsOnNamed("only-post-actions-allowed", ["DoSomething"]);
  }

  /** `Statement::allow_all()` alone allows every action on every one-segment resource. */
  lemma AllowAllCoversSingleSegments(id: S.Identifier, action: ActionName)
    ensures AllowedTo(Build([S.AllowAll()]), [id], action)
  {
    PermissionLemmas.SingleStatementBuild(S.AllowAll(), [id], action);
    assert Matches(S.AnyName(), [id]);
  }

  // ---------------------------------------------------------------------------
  // Where the build as written departs from the tests
  // ---------------------------------------------------------------------------

  const readAndDelete := S.Statement([S.AnyName()], S.List([["Post", "Read"], ["Post", "Delete"]]), true)

  /**
   The `multiple_actions` test as written: the two names chain into the single
   path `Post.Read.Post.Delete`, so neither `Post.Read` nor `Post.Delete` is allowed.
   */
  lemma MultipleActionsAsWritten()
    ensures ActionPath(readAndDelete.actions) == ["Post", "Read", "Post", "Delete"]
    ensures !AllowedTo(Build([readAndDelete]), someResource, ["Post", "Read"])
    ensures !AllowedTo(Build([readAndDelete]), someResource, ["Post", "Delete"])
    ensures AllowedTo(Build([readAndDelete]), someResource, ["Post", "Read", "Post", "Delete"])
  {
    assert Chain([["Post", "Read"], ["Post", "Delete"]]) == ["Post", "Read"] + Chain([["Post", "Delete"]]);
    assert Chain([["Post", "Delete"]]) == ["Post", "Delete"] + Chain([]);
    assert Matches(S.AnyName(), someResource);
    PermissionLemmas.SingleStatementBuild(readAndDelete, someResource, ["Post", "Read"]);
    PermissionLemmas.SingleStatementBuild(readAndDelete, someResource, ["Post", "Delete"]);
    PermissionLemmas.SingleStatementBuild(readAndDelete, someResource, ["Post", "Read", "Post", "Delete"]);
  }

  /** The `multiple_actions` test on the corrected build: both names allowed, nothing else. */
  lemma MultipleActionsIntended()
    ensures AllowedTo(Intended.BuildIntended([readAndDelete]), someResource, ["Post", "Read"])
    ensures AllowedTo(Intended.BuildIntended([readAndDelete]), someResource, ["Post", "Delete"])
    ensures !AllowedTo(Intended.BuildIntended([readAndDelete]), someResource, ["DoSomething"])
  {
    var names := readAndDelete.actions.names;
    assert Matches(S.AnyName(), someResource);
    Intended.IntendedSingleListStatement(readAndDelete, someResource, ["Post", "Read"]);
    assert IsPrefix(names[0], ["Post", "Read"]);
    Intended.IntendedSingleListStatement(readAndDelete, someResource, ["Post", "Delete"]);
    assert IsPrefix(names[1], ["Post", "Delete"]);
    Intended.IntendedSingleListStatement(readAndDelete, someResource, ["DoSomething"]);
  }

  const emptyList := S.Statement([allActionsAllowed], S.List([]), true)

  /** An empty `List` as written walks no segment and grants every action. */
  lemma EmptyListAsWritten(action: ActionName)
    ensures AllowedTo(Build([emptyList]), allActionsAllowed, action)
  {
    PermissionLemmas.SingleStatementBuild(emptyList, allActionsAllowed, action);
    assert Matches(allActionsAllowed, allActionsAllowed);
  }

  /** An empty `List` on the corrected build grants nothing. */
  lemma EmptyListIntended(resource: S.ResourceName, action: ActionName)
    ensures !AllowedTo(Intended.BuildIntended([emptyList]), resource, action)
  {
    Intended.IntendedSingleListStatement(emptyList, resource, action);
  }

  const postOnEverything := S.Statement([allActionsAllowed], S.List([["Post"]]), true)

  /**
   A later partial grant as written replaces an earlier `All` on the same node
   by a partial grant: `DoSomething`, allowed after the first statement, is
   denied after the second.
   */
  lemma PartialGrantDowngradesAsWritten()
    ensures AllowedTo(Build([everythingHere]), allActionsAllowed, ["DoSomething"])
    ensures !AllowedTo(Build([everythingHere, postOnEverything]), allActionsAllowed, ["DoSomething"])
  {
    PermissionLemmas.SingleStatementBuild(everythingHere, allActionsAllowed, ["DoSomething"]);
    assert Matches(allActionsAllowed, allActionsAllowed);
    var both := [everythingHere, postOnEverything];
    assert both[..1] == [everythingHere];
    assert [everythingHere][..0] == [];
    var p1 := Build([everythingHere]);
    var p := Build(both);
    assert p1 == ApplyStatement(Build([]), everythingHere);
    assert p == ApplyStatement(p1, postOnEverything);
    assert ActionPath(postOnEverything.actions) == ["Post"] by {
      assert Chain([["Post"]]) == ["Post"] + Chain([]);
    }
    forall w
      ensures !ActionAllowed(NodeAllowed(p, w), ["DoSomething"])
    {
      PermissionLemmas.DefaultNodeAllowed(w);
      PermissionLemmas.ApplyStatementNodes(Build([]), everythingHere, w);
      PermissionLemmas.ApplyStatementNodes(p1, postOnEverything, w);
    }
    PermissionLemmas.AllowedToIffMatchingGrant(p, allActionsAllowed, ["DoSomething"]);
  }

  const revokeReadHere := S.Statement([allActionsAllowed], S.FromAction(PostAction("Read")), false)

  /**
   A later revoke of one name as written also replaces an earlier `All` by a
   partial map: `DoSomething`, never revoked, is denied after it.
   */
  lemma RevokeDowngradesAsWritten()
    ensures AllowedTo(Build([everythingHere]), allActionsAllowed, ["DoSomething"])
    ensures !AllowedTo(Build([everythingHere, revokeReadHere]), allActionsAllowed, ["DoSomething"])
  {
    PermissionLemmas.SingleStatementBuild(everythingHere, allActionsAllowed, ["DoSomething"]);
    assert Matches(allActionsAllowed, allActionsAllowed);
    var both := [everythingHere, revokeReadHere];
    assert both[..1] == [everythingHere];
    assert [everythingHere][..0] == [];
    var p1 := Build([everythingHere]);
    var p := Build(both);
    assert p1 == ApplyStatement(Build([]), everythingHere);
    assert p == ApplyStatement(p1, revokeReadHere);
    DerivedTestNames();
    assert ActionPath(revokeReadHere.actions) == ["Post", "Read"] by {
      assert Chain([["Post", "Read"]]) == ["Post", "Read"] + Chain([]);
    }
    forall w
      ensures !ActionAllowed(NodeAllowed(p, w), ["DoSomething"])
    {
      PermissionLemmas.DefaultNodeAllowed(w);
      PermissionLemmas.ApplyStatementNodes(Build([]), everythingHere, w);
      PermissionLemmas.ApplyStatementNodes(p1, revokeReadHere, w);
    }
    PermissionLemmas.AllowedToIffMatchingGrant(p, allActionsAllowed, ["DoSomething"]);
  }

  /** On the corrected build the earlier `All` stays in force. */
  lemma PartialGrantKeepsAllIntended()
    ensures AllowedTo(Intended.BuildIntended([everythingHere, postOnEverything]), allActionsAllowed, ["DoSomething"])
  {
    var both := [everythingHere, postOnEverything];
    assert both[..1] == [everythingHere];
    assert [everythingHere][..0] == [];
    var p1 := Intended.BuildIntended([everythingHere]);
    assert p1 == Intended.ApplyIntended(Intended.BuildIntended([]), everythingHere);
    assert Intended.BuildIntended(both) == Intended.ApplyIntended(p1, postOnEverything);
    assert Matches(allActionsAllowed, allActionsAllowed);
    Intended.IntendedAllGrant(Default(), everythingHere.resources, everythingHere, allActionsAllowed, ["DoSomething"]);
    PermissionLemmas.MatchingGrantAllows(p1, allActionsAllowed, allActionsAllowed, ["DoSomething"]);
    Intended.AllowingStatementWidens(p1, postOnEverything, allActionsAllowed, ["DoSomething"]);
  }
}

=== FILE: statement.dfy ===
/**
 Resource addressing and statements (actionable/src/statement.rs).
 */
module Statements {
  import Text
  import opened Actions
  import DeriveAction

  /** Rust's `u64`. */
  type u64 = x: int | 0 <= x < 0x1_0000_0000_0000_0000

  /**
   One segment of a resource name. Equality is the derived, structural one:
   two identifiers are equal only when they are the same variant with the
   same value.
   */
  datatype Identifier = Any | Integer(n: u64) | String(s: string)

  /** `Identifier::to_owned`: the same variant with the same value, no longer borrowed. */
  function IdentifierToOwned(id: Identifier): (r: Identifier)
    ensures r == id
  {
    match id
    case Any => Any
    case Integer(n) => Integer(n)
    case String(s) => String(s)
  }

  /** `From<u64> for Identifier`. */
  function FromU64(n: u64): (r: Identifier)
    ensures r.Integer? && r.n == n && r != Any
  {
    Integer(n)
  }

  /** `From<&str>`, `From<&String>` and `From<String>` for `Identifier`. */
  function FromText(s: string): (r: Identifier)
    ensures r.String? && r.s == s && r != Any
  {
    String(s)
  }

  /** Structural equality: an integer never equals a string, and `Any` only equals `Any`. */
  lemma IdentifierEqualityIsStructural(n: u64, s: string, id: Identifier)
    ensures FromU64(n) != FromText(s)
    ensures id == Any <==> id.Any?
    ensures FromU64(n) == id <==> id.Integer? && id.n == n
    ensures FromText(s) == id <==> id.String? && id.s == s
  {
  }

  /** `Display for Identifier`: `*` for `Any`, the decimal digits of an integer, a string verbatim. */
  function IdentifierDisplay(id: Identifier): (r: string)
    ensures id.Any? ==> r == "*"
    ensures id.Integer? ==> |r| >= 1 && Text.AllDigits(r) && Text.DecimalValue(r) == id.n
    ensures id.Integer? ==> (r[0] == '0' ==> id.n == 0)
    ensures id.Integer? && |r| > 1 ==> r[0] != '0'
    ensures id.String? ==> r == id.s
  {
    match id
    case Any => "*"
    case Integer(n) => Text.DecimalRoundTrip(n); Text.Decimal(n)
    case String(s) => s
  }

  /** `ResourceName(Vec<Identifier>)`: the path of a protected object. */
  type ResourceName = seq<Identifier>

  /** `ResourceName::any()`. */
  function AnyName(): (r: ResourceName)
    ensures |r| == 1 && r[0] == Any
  {
    Named(Any)
  }

  /** `ResourceName::named(name)`. */
  function Named(id: Identifier): (r: ResourceName)
    ensures |r| == 1 && r[0] == id
  {
    [id]
  }

  /** `ResourceName::and(name)`: appends one segment, leaving the earlier ones as they were. */
  function And(name: ResourceName, id: Identifier): (r: ResourceName)
    ensures |r| == |name| + 1
    ensures r[..|name|] == name
    ensures r[|name|] == id
  {
    name + [id]
  }

  /** `ResourceName::to_owned`: converts every segment with `IdentifierToOwned`. */
  function ResourceToOwned(name: ResourceName): (r: ResourceName)
    ensures |r| == |name|
    ensures forall i :: 0 <= i < |r| ==> r[i] == name[i]
  {
    seq(|name|, i requires 0 <= i < |name| => IdentifierToOwned(name[i]))
  }

  /** True iff no string segment of `name` contains a '.'. */
  predicate DotFreeSegments(name: ResourceName) {
    forall i :: 0 <= i < |name| ==> name[i].String? ==> Text.DotFree(name[i].s)
  }

  /** The rendering of every segment of `name`, in order. */
  function SegmentTexts(name: ResourceName): (r: seq<string>)
    ensures |r| == |name|
    ensures forall i :: 0 <= i < |name| ==> r[i] == IdentifierDisplay(name[i])
  {
    seq(|name|, i requires 0 <= i < |name| => IdentifierDisplay(name[i]))
  }

  /** `Display for ResourceName`: the segments' renderings separated by '.'. */
  function ResourceDisplay(name: ResourceName): (r: string)
    ensures |name| == 0 ==> r == ""
    ensures name == AnyName() ==> r == "*"
    ensures |name| >= 1 && DotFreeSegments(name) ==>
              Text.CountDots(r) == |name| - 1 && Text.Split(r) == SegmentTexts(name)
  {
    var texts := SegmentTexts(name);
    if |name| >= 1 && DotFreeSegments(name) then
      assert forall i :: 0 <= i < |texts| ==> Text.DotFree(texts[i]) by {
        forall i | 0 <= i < |texts|
          ensures Text.DotFree(texts[i])
        {
          if name[i].Integer? {
            Text.DigitsAreDotFree(texts[i]);
          }
        }
      }
      Text.JoinDotCount(texts);
      Text.SplitJoin(texts);
      Text.Join(texts)
    else
      Text.Join(texts)
  }

  /** `ActionNameList`: an explicit list of action names, or every action. */
  datatype ActionNameList = List(names: seq<ActionName>) | All

  /** `From<ActionName> for ActionNameList`. */
  function FromName(name: ActionName): (r: ActionNameList)
    ensures r.List? && |r.names| == 1 && r.names[0] == name
  {
    List([name])
  }

  /** `From<Vec<ActionName>> for ActionNameList`. */
  function FromNames(names: seq<ActionName>): (r: ActionNameList)
    ensures r.List? && r.names == names
  {
    List(names)
  }

  /** `From<T: Action> for ActionNameList`: a one-element list holding the action's name. */
  function FromAction(action: DeriveAction.ActionValue): (r: ActionNameList)
    requires DeriveAction.Accepted(action)
    ensures r.List? && |r.names| == 1
    ensures DeriveAction.Name(action) == DeriveAction.Named(r.names[0])
  {
    DeriveAction.NameSucceedsIffAccepted(action);
    List([DeriveAction.Name(action).name])
  }

  /** `From<Vec<T: Action>> for ActionNameList`: the actions' names, in the same order. */
  function FromActions(actions: seq<DeriveAction.ActionValue>): (r: ActionNameList)
    requires forall i :: 0 <= i < |actions| ==> DeriveAction.Accepted(actions[i])
    ensures r.List? && |r.names| == |actions|
    ensures forall i :: 0 <= i < |actions| ==>
              DeriveAction.Name(actions[i]) == DeriveAction.Named(r.names[i])
  {
    List(seq(|actions|, i requires 0 <= i < |actions| => FromAction(actions[i]).names[0]))
  }

  /**
   A statement: whether `actions` are `allowed` against each of `resources`.
   The `allowed` flag is the one the trie build reads; see README.
   */
  datatype Statement = Statement(resources: seq<ResourceName>, actions: ActionNameList, allowed: bool)

  /** `Statement::allow_all()`: every action against `ResourceName::any()`. */
  function AllowAll(): (r: Statement)
    ensures |r.resources| == 1 && r.resources[0] == AnyName()
    ensures r.actions == All
    ensures r.allowed
  {
    Statement([AnyName()], All, true)
  }
}

=== FILE: text.dfy ===
/**
 Text helpers shared by the `Display` renderings of resource and action
 names: joining segments with '.', the inverse split, and the decimal
 rendering of an unsigned integer.
 */
module Text {

  /** True iff `s` contains no '.' (a segment that survives a split). */
  predicate DotFree(s: string) {
    forall i :: 0 <= i < |s| ==> s[i] != '.'
  }

  /** Number of '.' characters in `s`. */
  function CountDots(s: string): nat {
    if |s| == 0 then 0 else (if s[0] == '.' then 1 else 0) + CountDots(s[1..])
  }

  /** Writes every segment in order, with a '.' before every segment but the first. */
  function Join(segs: seq<string>): string {
    if |segs| == 0 then ""
    else if |segs| == 1 then segs[0]
    else segs[0] + "." + Join(segs[1..])
  }

  /** Cuts `s` at every '.'; the inverse of `Join` on dot-free segments. */
  function Split(s: string): (r: seq<string>)
    ensures |r| >= 1
    ensures forall i :: 0 <= i < |r| ==> DotFree(r[i])
  {
    if |s| == 0 then [""]
    else
      var rest := Split(s[1..]);
      if s[0] == '.' then [""] + rest
      else [[s[0]] + rest[0]] + rest[1..]
  }

  lemma {:induction false} CountDotsAppend(a: string, b: string)
    ensures CountDots(a + b) == CountDots(a) + CountDots(b)
  {
    if |a| == 0 {
      assert a + b == b;
    } else {
      assert (a + b)[1..] == a[1..] + b;
      CountDotsAppend(a[1..], b);
    }
  }

  lemma {:induction false} CountDotsOfDotFree(s: string)
    requires DotFree(s)
    ensures CountDots(s) == 0
  {
    if |s| > 0 {
      CountDotsOfDotFree(s[1..]);
    }
  }

  /** The rendering of n >= 1 dot-free segments holds exactly n - 1 dots. */
  lemma {:induction false} JoinDotCount(segs: seq<string>)
    requires |segs| >= 1
    requires forall i :: 0 <= i < |segs| ==> DotFree(segs[i])
    ensures CountDots(Join(segs)) == |segs| - 1
  {
    if |segs| == 1 {
      CountDotsOfDotFree(segs[0]);
    } else {
      JoinDotCount(segs[1..]);
      CountDotsOfDotFree(segs[0]);
      CountDotsAppend(segs[0] + ".", Join(segs[1..]));
      CountDotsAppend(segs[0], ".");
    }
  }

  /** The rendering starts with the first segment and ends with the last one. */
  lemma {:induction false} JoinEnds(segs: seq<string>)
    requires |segs| >= 1
    ensures |Join(segs)| >= |segs[0]| && Join(segs)[..|segs[0]|] == segs[0]
    ensures |Join(segs)| >= |segs[|segs| - 1]|
    ensures Join(segs)[|Join(segs)| - |segs[|segs| - 1]|..] == segs[|segs| - 1]
  {
    if |segs| > 1 {
      JoinEnds(segs[1..]);
      var rest := Join(segs[1..]);
      assert Join(segs) == segs[0] + "." + rest;
      assert segs[1..][|segs[1..]| - 1] == segs[|segs| - 1];
    }
  }

  /** A dot-free prefix only extends the first piece of a split. */
  lemma {:induction false} SplitDotFreePrefix(a: string, t: string)
    requires DotFree(a)
    ensures Split(a + t) == [a + Split(t)[0]] + Split(t)[1..]
  {
    if |a| == 0 {
      assert a + t == t;
      assert a + Split(t)[0] == Split(t)[0];
      assert Split(t) == [Split(t)[0]] + Split(t)[1..];
    } else {
      assert (a + t)[0] == a[0];
      assert (a + t)[1..] == a[1..] + t;
      SplitDotFreePrefix(a[1..], t);
      assert [a[0]] + (a[1..] + Split(t)[0]) == a + Split(t)[0];
    }
  }

  /** Round trip: splitting the rendering of dot-free segments gives them back. */
  lemma {:induction false} SplitJoin(segs: seq<string>)
    requires |segs| >= 1
    requires forall i :: 0 <= i < |segs| ==> DotFree(segs[i])
    ensures Split(Join(segs)) == segs
  {
    if |segs| == 1 {
      SplitDotFreePrefix(segs[0], "");
      assert segs[0] + "" == segs[0];
    } else {
      var rest := Join(segs[1..]);
      SplitJoin(segs[1..]);
      assert Split("." + rest) == [""] + Split(rest);
      assert segs[0] + "." + rest == segs[0] + ("." + rest);
      SplitDotFreePrefix(segs[0], "." + rest);
      assert segs[0] + "" == segs[0];
      assert segs == [segs[0]] + segs[1..];
    }
  }

  /** Round trip the other way: every string is the rendering of its split. */
  lemma {:induction false} JoinSplit(s: string)
    ensures Join(Split(s)) == s
  {
    if |s| > 0 {
      var rest := Split(s[1..]);
      JoinSplit(s[1..]);
      if s[0] == '.' {
        assert ([""] + rest)[1..] == rest;
        assert s == "" + "." + s[1..];
      } else {
        var r := [[s[0]] + rest[0]] + rest[1..];
        if |rest| == 1 {
          assert s == [s[0]] + rest[0];
        } else {
          assert r[1..] == rest[1..];
          assert Join(rest) == rest[0] + "." + Join(rest[1..]);
          assert s == [s[0]] + rest[0] + "." + Join(rest[1..]);
        }
      }
    }
  }

  predicate IsDigit(c: char) {
    '0' <= c <= '9'
  }

  predicate AllDigits(s: string) {
    forall i :: 0 <= i < |s| ==> IsDigit(s[i])
  }

  function DigitChar(d: nat): (c: char)
    requires d < 10
    ensures IsDigit(c)
  {
    (('0' as int) + d) as char
  }

  /** Decimal rendering of `n`, as `u64`'s `Display` writes it. */
  function Decimal(n: nat): (r: string)
    ensures |r| >= 1 && AllDigits(r)
    ensures r[0] == '0' ==> n == 0
    ensures |r| > 1 ==> r[0] != '0'
  {
    if n < 10 then [DigitChar(n)]
    else Decimal(n / 10) + [DigitChar(n % 10)]
  }

  /** Reads a string of decimal digits back as a number. */
  function DecimalValue(s: string): nat
    requires AllDigits(s)
  {
    if |s| == 0 then 0
    else DecimalValue(s[..|s| - 1]) * 10 + ((s[|s| - 1] as int) - ('0' as int))
  }

  /** Round trip: the decimal rendering reads back as the same number. */
  lemma {:induction false} DecimalRoundTrip(n: nat)
    ensures DecimalValue(Decimal(n)) == n
  {
    if n >= 10 {
      DecimalRoundTrip(n / 10);
      var s := Decimal(n);
      assert s[..|s| - 1] == Decimal(n / 10);
    }
  }

  lemma DigitsAreDotFree(s: string)
    requires AllDigits(s)
    ensures DotFree(s)
  {
  }
}
